=== FILE: README.md ===
# Global Citizens Engineers: directory, connect dialog and form log

This project models the sequential core of the site's `main.js` and proves
properties of the model. It covers three parts.

- **The member directory.** `filterMembers` lower-cases the search box and
  the industry and location selectors. It keeps the members whose
  "name role tags" text contains the search term, whose industry equals the
  lower-cased selector value when one is chosen, and for which no location is
  chosen. `renderDirectory`
  replaces the grid with one card per kept member, in directory order, and
  updates the count. `filterByTag` puts a tag into the search box and filters.
  Only the search box (`input`) and the industry selector (`change`) have
  listeners (main.js:158-159). Choosing a location triggers nothing by itself.
  It takes effect at the next search or industry event, so the model has no
  location-change event.
  The page is abstract: each control and mount point is present with a value
  or absent. A card is the id of the member it shows.
- **The connect dialog.** This is a state machine over the `.modal-backdrop`
  elements in the document and the callbacks still waiting to run. Those are
  the animation frame that adds `active`, the 300 ms removal timer of
  `closeModal`, and the 1500 ms timer of `handleConnectSubmit`. The delays are
  not modelled: any pending callback may run next. That covers every order the
  real delays allow, so the invariants hold for all of them. The key result is
  `ConnectModal.AtMostOneBackdrop`: after any sequence of user actions and
  callbacks, the document holds at most one backdrop.
- **The submission log.** Each submit of the join or propose form reads the
  list stored under `gce_<formName>`, appends the form's fields plus a
  timestamp, and writes the list back. A missing key reads as an empty list.

Modules: `Maybe` (the option type), `Text` (ASCII lower-casing, `join`,
`includes`), `Selection` (`Array.prototype.filter` and its meaning as a
subsequence), `Directory`, `ConnectModal` and `FormLog`.

Five behaviours of `main.js` are easy to misread; the model keeps each of them.

- The location filter is `!location`. Any non-empty location value therefore
  empties the directory (`Directory.LocationEmptiesResult`). It is not a filter that
  always passes.
- The industry selector is lower-cased but `member.industry` is not. A member
  whose industry has an upper-case letter never passes a chosen industry
  (`Directory.CapitalisedIndustryNeverMatches`).
- Timer callbacks are not guarded against a newer dialog. The removal and
  animation-frame callbacks name their element, so they cannot touch a newer
  dialog (`ConnectModal.StaleElementTasksSpareNewDialog`). The submit timer
  calls `closeModal()`, which closes whatever dialog is open when it fires.
  If the user submits one member's dialog and opens another member's dialog
  within 1.5 s, the second dialog is shown and then closed without the user
  asking (`ConnectModal.StaleSubmitTimerClosesLaterDialog`). The model keeps
  this behaviour.
- A new dialog becomes `active` only when its animation frame runs. It does
  not become active during `openConnectModal` itself (`ConnectModal.OpenKnownId`,
  `ConnectModal.OpenThenFrame`).
- Submitting the connect form stores nothing. The code only disables the
  button and schedules the close. There is no message log in `main.js`.

## Model

| member | source | states |
|---|---|---|
| Text.Lower | main.js:142-147 | lower-casing keeps the length, leaves every character other than an ASCII capital as it is, maps each capital to its lower-case letter, and leaves no capital in the result |
| Text.IncludesIffOccurs | main.js:148 | the `includes` search succeeds exactly when the query occurs in the text at some offset |
| Text.JoinIncludesPart | main.js:147 | every tag occurs in the tags joined by spaces |
| Selection.Filter | main.js:146-153 | the filtered list is no longer than the input; every element in it is in the input and passes; every input element that passes is in it |
| Selection.FilterSelectsExactly | main.js:146-153 | the filtered list is the subsequence of the input taken at strictly increasing positions, and those are exactly the positions whose element passes |
| Selection.SelectsExactlyIsFilter | main.js:146-153 | any list taken at exactly the passing positions, in increasing order, is the filter's result |
| Selection.FilterCharacterised | main.js:146-153 | both directions: a list is the filter's result if and only if it is the in-order selection of exactly the passing positions |
| Selection.EmbedsLength | main.js:146 | a list taken at strictly increasing positions of another is no longer than it |
| Selection.FilterKeepsAll | main.js:146-153 | when every element passes, the result is the input, unchanged and in order |
| Selection.FilterKeepsNone | main.js:146-153 | when no element passes, the result is empty |
| Selection.FilterIdempotent | main.js:146-153 | filtering the result again changes nothing |
| Directory.Filtered | main.js:146-153 | a member is in the filtered directory exactly when it is in the directory and passes the search, industry and location tests |
| Directory.FilteredCharacterised | main.js:146-153 | the filtered directory is, and is the only, in-order subsequence of the directory at exactly the positions of the members that pass |
| Directory.FilteredIdempotent | main.js:146-153 | re-filtering the filtered directory with the same criteria changes nothing |
| Directory.MatchesSearchIff | main.js:147-148 | a member passes the search exactly when the term is empty or occurs in the lower-cased "name role tags" text, and the emptiness test is redundant |
| Directory.EmptyCriteriaKeepAll | main.js:142-152 | with empty search, industry and location values the whole directory is kept, in its original order |
| Directory.LocationEmptiesResult | main.js:144-150 | any non-empty location value empties the result |
| Directory.IndustryIsExact | main.js:143-149 | with an industry chosen, every kept member's industry equals the lower-cased selector value exactly |
| Directory.CapitalisedIndustryNeverMatches | main.js:143-149 | with a non-empty industry selector, a member whose stored industry holds an upper-case letter is never kept |
| Directory.TagMatchesItsMember | main.js:147-148 | a member passes a search for the lower-cased form of any of its own tags |
| Directory.MatchesSearchWord | main.js:147-148 | a member passes a search for the lower-cased form of any piece of its search text |
| Directory.RenderShowsMembers | main.js:89-136 | rendering leaves one card per member, in input order, showing each member's id; the count equals the number of cards; the cards and count already on the page play no part |
| Directory.RenderIdempotent | main.js:89-132 | rendering the same members twice is the same as rendering them once |
| Directory.FilterMembersShowsSelection | main.js:139-156 | after filtering, the controls are as they were, and the grid shows the ids of the in-order selection of exactly the passing members; the count, when present, equals the number of cards |
| Directory.FilterMembersIdempotent | main.js:139-156 | filtering again without changing the controls changes nothing |
| Directory.ClearedControlsShowAll | main.js:142-155 | with every control empty or absent, the grid shows the whole directory in order |
| Directory.FilterByTagShowsTaggedMember | main.js:161-166 | calling `filterByTag` with one of a member's tags puts the tag in the search box, and the member's card is shown unless the industry or location choice excludes it |
| Directory.FilterByTagIsSearchInput | main.js:158-166 | calling `filterByTag` with a tag has the same effect as typing it into the search box |
| Directory.IndustryChangeShowsOnlyThatIndustry | main.js:140-159 | choosing a non-empty industry stores the value; every card shown is a member whose stored industry is that value lower-cased, and every such member that passes the search box and has no location chosen is shown |
| Directory.AdaMatchesLovelace | main.js:147-148 | "Ada Lovelace" passes the search "lovelace" |
| Directory.SearchLovelace | main.js:139-156 | in a one-member directory, searching "lovelace" shows exactly that member's card and a count of 1 |
| Directory.ClearSearch | main.js:139-156 | clearing the search in that directory shows its one card again |
| Directory.LovelaceScenario | main.js:139-156 | searching "lovelace" and then clearing the search shows the one card both times |
| ConnectModal.Find | main.js:205 | the lookup finds nothing exactly when no member has the id; what it finds is a member of the list with that id |
| ConnectModal.FindIsFirst | main.js:205 | the lookup returns the first member with the id |
| ConnectModal.Without | main.js:258 | removing an element keeps exactly the other backdrops |
| ConnectModal.WithActive | main.js:243-245 | the animation frame changes nothing but the `active` flag, and a backdrop is active afterwards exactly when it was before or it is the frame's element |
| ConnectModal.InitInv | main.js:204-260 | the page starts with no backdrop and no pending callback, which satisfies the invariant |
| ConnectModal.OpenInv | main.js:204-246 | opening keeps at most one backdrop and the element numbering fresh |
| ConnectModal.CloseInv | main.js:254-260 | closing keeps the invariant |
| ConnectModal.SubmitInv | main.js:262-275 | submitting keeps the invariant |
| ConnectModal.FireInv | main.js:244-274 | running any pending callback keeps the invariant |
| ConnectModal.StepInv | main.js:204-275 | every user action and callback keeps the invariant |
| ConnectModal.RunInv | main.js:204-275 | every sequence of actions and callbacks keeps the invariant |
| ConnectModal.AtMostOneBackdrop | main.js:204-275 | from page load, the document never holds more than one backdrop, whatever the actions and callback order |
| ConnectModal.OpenUnknownId | main.js:205-206 | opening for an id no member has changes nothing, so an open dialog stays mounted |
| ConnectModal.OpenKnownId | main.js:205-246 | opening for a known id leaves exactly one backdrop, whatever was mounted before: a new element for the first member with that id, not yet active, with its animation frame as the last pending callback |
| ConnectModal.OpenThenFrame | main.js:241-246 | once its animation frame runs, the new dialog is the only backdrop and it is active |
| ConnectModal.StaleElementTasksSpareNewDialog | main.js:209-258 | an animation frame or removal callback left over from an earlier dialog does not change a newly opened one |
| ConnectModal.CloseWithoutDialog | main.js:254-256 | closing with no backdrop mounted changes nothing |
| ConnectModal.CloseHides | main.js:254-258 | closing clears `active` at once, keeps the element mounted and schedules its removal |
| ConnectModal.CloseThenRemoval | main.js:258 | when the scheduled removal runs, no backdrop is left |
| ConnectModal.RemovalOfDetachedElement | main.js:258 | a removal callback for an element that is no longer mounted changes nothing |
| ConnectModal.WithoutNothing | main.js:258 | removing an element that is not in the document leaves the document as it is |
| ConnectModal.SubmitSchedulesClose | main.js:262-275 | submitting disables the send button and schedules exactly one close; a second submit of the same form does nothing |
| ConnectModal.ScenarioFirstDialog | main.js:204-275 | opening one member's dialog gives one hidden backdrop with its frame pending; the frame shows it; submitting it marks it sent and schedules the close |
| ConnectModal.ScenarioSecondDialog | main.js:204-246 | opening a second member's dialog then replaces the first backdrop with a new hidden one, keeps the submit timer pending, and its frame shows it |
| ConnectModal.ScenarioUntilSecondShown | main.js:204-275 | after those five events the second member's dialog is on screen and the first dialog's submit timer is still pending |
| ConnectModal.ScenarioTimer | main.js:254-274 | the leftover submit timer then hides the second member's dialog and schedules its removal |
| ConnectModal.StaleSubmitTimerClosesLaterDialog | main.js:204-275 | a submit timer still pending when another member's dialog is opened and shown closes that new dialog, which the user neither submitted nor closed |
| FormLog.FromEntries | main.js:288-289 | the record has a field for exactly the names among the form's entries |
| FormLog.FromEntriesLastWins | main.js:288-289 | when a name occurs more than once, the record holds the value of its last entry |
| FormLog.NewRecordFields | main.js:292-295 | the stored record carries the timestamp, and under every other name exactly the form's fields, with the last value entered for each |
| FormLog.Submit | main.js:291-296 | a submit appends exactly one record to the end of the form's log and keeps its earlier entries; the key exists afterwards and every other key is unchanged |
| FormLog.StorageKeyInjective | main.js:291 | different form names give different storage keys |
| FormLog.SubmitLeavesOtherForms | main.js:291-296 | submitting one form leaves every other form's log unchanged |
| FormLog.JoinAndProposeAreSeparate | main.js:315-316 | the join and propose forms keep separate logs |
| FormLog.FirstSubmitStartsLog | main.js:291-296 | a missing key reads as an empty log, so the first submit stores a one-record log |
| FormLog.SubmitAllAppends | main.js:291-296 | a run of submits appends their records in submission order after everything already stored |

## Left out

- Text.Lower: handles the ASCII letters only. `toLowerCase` also maps non-ASCII capitals, and Unicode case mapping is out of scope.
- Loading the data (`init`, main.js:19-38) is network I/O. The member list is a parameter of every operation instead.
- The navigation toggle, smooth scrolling, scroll fade-ins, active-link highlighting and the reading progress bar (main.js:45-78, 321-403) are presentation only. The progress bar also uses floating point.
- Markup, inline styles and animation delays of the cards and the dialog (main.js:95-128, 215-239) are left out. A card is its member's id. A dialog is the member it addresses.
- `renderSparkFeed` (main.js:171-199) only clears the feed and appends each item in order. That adds nothing beyond what `renderDirectory` shows.
- Real delays and animation frames are not modelled. Pending callbacks may run in any order.
- `JSON.parse`/`JSON.stringify` and `localStorage` are modelled by their parsed values. Corrupt stored values are not modelled, and the code does not handle them either.
- A submit whose `localStorage` read or write throws (`SecurityError` when storage is disabled, main.js:291; `QuotaExceededError` when it is full, main.js:296) stores nothing. `FormLog.Submit` models a submit whose storage calls succeed.
- The field order of a stored record is not modelled. A record is a map from field name to value.
- File values in form data are not modelled. Every field value is a string.
- The button feedback after a form submit (main.js:298-311) is not modelled. The label change and the form reset 3 s later are presentation. The submit button is also disabled for those 3 s (main.js:301, 308), so the page refuses a second submit of that form until then. That disabled state is not modelled: `FormLog.Submit` and `FormLog.SubmitAll` accept every sequence of submits. This only widens the set of submit sequences, so `FormLog.SubmitAllAppends` still holds for every sequence the page allows.
- The style changes of the connect dialog's send button (main.js:264-269) are not modelled. Only its disabled state is kept.
- The browser's `required` checks on the dialog's textarea and email field are not modelled. A submit stands for a submit the browser lets through.
- Member data is assumed to be free of markup. `main.js` puts `name`, `role`, `initials`, `location` and `tags` into `innerHTML` unescaped (main.js:105-126, 215-239). An element with class `modal-backdrop` inside member text would be a second match for `closeModal`'s `querySelector`. `ConnectModal.AtMostOneBackdrop` counts only the dialogs `openConnectModal` creates.
- Member fields that `main.js` never reads are not modelled. These are verified, bio, website, vouchedBy and joined.
- `handleFormSubmit` attaches no listener when the form is missing (main.js:284). A `FormLog.Submit` stands for a submit of a form that is on the page.
- Directory.FilterByTagShowsTaggedMember: is stated for a call `filterByTag(tag)`, not for a click on the tag. The click runs the inline handler `filterByTag('${tag}')` built into the card markup (main.js:101-103), and markup is not modelled. A tag containing `'` makes that handler a syntax error, so the click does nothing. A tag containing `\` or an HTML character reference reaches `filterByTag` altered. Also, an `<input>` strips line breaks from an assigned value (main.js:163), so a tag containing one is neither stored as-is nor guaranteed to match. The model stores the tag verbatim.
- `main.js` has no other dialogs and stores no messages.

=== FILE: connect_modal.dfy ===
/** The connect dialog of main.js as a state machine over the mounted
    `.modal-backdrop` elements and the callbacks waiting on
    requestAnimationFrame and setTimeout.

    Element identity is a number handed out when the element is created.
    The delays (one animation frame, 300 ms, 1500 ms) are not modelled: any
    pending callback may fire next, which covers every order the real delays
    allow, so what is proved here holds whatever the timing. */
module ConnectModal {

  import opened Maybe
  import opened Directory

  /** A `.modal-backdrop` element in the document: the member its dialog
      addresses, whether it carries the `active` class, and whether its send
      button has been pressed (and so disabled). */
  datatype Backdrop = Backdrop(elem: nat, member: Member, active: bool, sent: bool)

  /** A callback that has been scheduled but has not run. */
  datatype Task =
    | Activate(elem: nat)  // the animation frame that adds `active` to a new backdrop
    | Detach(elem: nat)    // the timer of closeModal that removes the backdrop
    | CloseLater           // the timer of handleConnectSubmit that calls closeModal

  /** The backdrops in document order, the pending callbacks, and the next
      element identity. */
  datatype State = State(mounted: seq<Backdrop>, pending: seq<Task>, nextElem: nat)

  function Init(): State {
    State([], [], 0)
  }

  /** Position i holds the first member with this id. */
  ghost predicate FirstWithId(ms: seq<Member>, id: int, i: int) {
    0 <= i < |ms| && ms[i].id == id && forall j :: 0 <= j < i ==> ms[j].id != id
  }

  /** `members.find(m => m.id === id)`. */
  function Find(ms: seq<Member>, id: int): (r: Option<Member>)
    ensures r.None? <==> forall i :: 0 <= i < |ms| ==> ms[i].id != id
    ensures r.Some? ==> r.value in ms && r.value.id == id
  {
    if |ms| == 0 then None
    else if ms[0].id == id then Some(ms[0])
    else Find(ms[1..], id)
  }

  /** Find returns the first member with the id, not merely some member with it. */
  lemma {:induction false} FindIsFirst(ms: seq<Member>, id: int, i: int)
    requires FirstWithId(ms, id, i)
    ensures Find(ms, id) == Some(ms[i])
    decreases |ms|
  {
    if i > 0 {
      assert ms[0].id != id;
      assert FirstWithId(ms[1..], id, i - 1);
      FindIsFirst(ms[1..], id, i - 1);
    }
  }

  /** openConnectModal: an unknown id does nothing; otherwise the first
      backdrop in the document (if any) is removed, a new one for the member
      is appended, and the frame that will make it active is requested. */
  function Open(s: State, ms: seq<Member>, id: int): State {
    match Find(ms, id)
    case None => s
    case Some(m) =>
      var kept := if |s.mounted| == 0 then [] else s.mounted[1..];
      State(kept + [Backdrop(s.nextElem, m, false, false)],
            s.pending + [Activate(s.nextElem)],
            s.nextElem + 1)
  }

  /** closeModal: with a backdrop in the document, the first one loses
      `active` at once and its removal is scheduled; otherwise nothing. */
  function Close(s: State): State {
    if |s.mounted| == 0 then s
    else
      var b := s.mounted[0];
      s.(mounted := s.mounted[0 := b.(active := false)], pending := s.pending + [Detach(b.elem)])
  }

  /** A click on a backdrop: only a click on the backdrop itself, not inside
      the dialog, closes it. */
  function Click(s: State, onBackdrop: bool): State {
    if onBackdrop then Close(s) else s
  }

  /** handleConnectSubmit, as reached from the dialog's form: the send button
      is disabled and closeModal is scheduled. A form whose button is already
      disabled cannot be submitted again, and with no dialog there is no form. */
  function Submit(s: State): State {
    if |s.mounted| == 0 || s.mounted[0].sent then s
    else s.(mounted := s.mounted[0 := s.mounted[0].(sent := true)], pending := s.pending + [CloseLater])
  }

  /** The backdrops other than e; removing an element that is not in the
      document leaves the document as it is. */
  function Without(bs: seq<Backdrop>, e: nat): (r: seq<Backdrop>)
    ensures forall b :: b in r <==> b in bs && b.elem != e
    ensures |r| <= |bs|
  {
    if |bs| == 0 then []
    else (if bs[0].elem == e then [] else [bs[0]]) + Without(bs[1..], e)
  }

  /** The backdrops with `active` added to e. */
  function WithActive(bs: seq<Backdrop>, e: nat): (r: seq<Backdrop>)
    ensures |r| == |bs|
    ensures forall k :: 0 <= k < |bs| ==> r[k].(active := bs[k].active) == bs[k]
    ensures forall k :: 0 <= k < |bs| ==> (r[k].active <==> bs[k].active || bs[k].elem == e)
  {
    seq(|bs|, k requires 0 <= k < |bs| => if bs[k].elem == e then bs[k].(active := true) else bs[k])
  }

  /** The pending callbacks without the one at position i. */
  function Dequeue(ts: seq<Task>, i: nat): seq<Task>
    requires i < |ts|
  {
    ts[..i] + ts[i + 1..]
  }

  /** Running the pending callback at position i. */
  function Fire(s: State, i: nat): State
    requires i < |s.pending|
  {
    var s' := s.(pending := Dequeue(s.pending, i));
    match s.pending[i]
    case Activate(e) => s'.(mounted := WithActive(s'.mounted, e))
    case Detach(e) => s'.(mounted := Without(s'.mounted, e))
    case CloseLater => Close(s')
  }

  /** What can happen to the dialog: the user opens it from a card, presses
      its close button, clicks the backdrop, submits the form, or a pending
      callback runs. */
  datatype Event =
    | OpenConnect(id: int)
    | CloseButton
    | BackdropClick(onBackdrop: bool)
    | SubmitForm
    | RunTask(i: nat)

  function Step(s: State, ms: seq<Member>, ev: Event): State {
    match ev
    case OpenConnect(id) => Open(s, ms, id)
    case CloseButton => Close(s)
    case BackdropClick(onBackdrop) => Click(s, onBackdrop)
    case SubmitForm => Submit(s)
    case RunTask(i) => if i < |s.pending| then Fire(s, i) else s
  }

  function Run(s: State, ms: seq<Member>, evs: seq<Event>): State
    decreases |evs|
  {
    if |evs| == 0 then s else Run(Step(s, ms, evs[0]), ms, evs[1..])
  }

  // ---------------------------------------------------------------------------
  // The invariant: at most one backdrop
  // ---------------------------------------------------------------------------

  /** Every element named in the state was created before nextElem. */
  ghost predicate Fresh(s: State) {
    && (forall k :: 0 <= k < |s.mounted| ==> s.mounted[k].elem < s.nextElem)
    && (forall k :: 0 <= k < |s.pending| && !s.pending[k].CloseLater? ==> s.pending[k].elem < s.nextElem)
  }

  ghost predicate Inv(s: State) {
    |s.mounted| <= 1 && Fresh(s)
  }

  lemma InitInv()
    ensures Inv(Init())
  {
  }

  lemma DequeueKeeps(ts: seq<Task>, i: nat, k: int)
    requires i < |ts| && 0 <= k < |Dequeue(ts, i)|
    ensures Dequeue(ts, i)[k] == if k < i then ts[k] else ts[k + 1]
  {
  }

  lemma OpenInv(s: State, ms: seq<Member>, id: int)
    requires Inv(s)
    ensures Inv(Open(s, ms, id))
  {
  }

  lemma CloseInv(s: State)
    requires Inv(s)
    ensures Inv(Close(s))
  {
  }

  lemma SubmitInv(s: State)
    requires Inv(s)
    ensures Inv(Submit(s))
  {
  }

  lemma FireInv(s: State, i: nat)
    requires Inv(s) && i < |s.pending|
    ensures Inv(Fire(s, i))
  {
    var s' := s.(pending := Dequeue(s.pending, i));
    forall k | 0 <= k < |s'.pending| && !s'.pending[k].CloseLater?
      ensures s'.pending[k].elem < s'.nextElem
    {
      DequeueKeeps(s.pending, i, k);
    }
    assert Inv(s');
    match s.pending[i]
    case Activate(e) =>
    case Detach(e) =>
      forall b | b in Without(s'.mounted, e)
        ensures b.elem < s'.nextElem
      {
      }
    case CloseLater =>
      CloseInv(s');
  }

  lemma StepInv(s: State, ms: seq<Member>, ev: Event)
    requires Inv(s)
    ensures Inv(Step(s, ms, ev))
  {
    match ev
    case OpenConnect(id) => OpenInv(s, ms, id);
    case CloseButton => CloseInv(s);
    case BackdropClick(onBackdrop) => CloseInv(s);
    case SubmitForm => SubmitInv(s);
    case RunTask(i) =>
      if i < |s.pending| {
        FireInv(s, i);
      }
  }

  lemma {:induction false} RunInv(s: State, ms: seq<Member>, evs: seq<Event>)
    requires Inv(s)
    ensures Inv(Run(s, ms, evs))
    decreases |evs|
  {
    if |evs| > 0 {
      StepInv(s, ms, evs[0]);
      RunInv(Step(s, ms, evs[0]), ms, evs[1..]);
    }
  }

  /** Whatever the user does and whatever order the callbacks run in, the
      document never holds more than one backdrop. */
  lemma AtMostOneBackdrop(ms: seq<Member>, evs: seq<Event>)
    ensures |Run(Init(), ms, evs).mounted| <= 1
  {
    InitInv();
    RunInv(Init(), ms, evs);
  }

  // ---------------------------------------------------------------------------
  // Opening
  // ---------------------------------------------------------------------------

  /** Opening for an id no member has changes nothing: an open dialog stays. */
  lemma OpenUnknownId(s: State, ms: seq<Member>, id: int)
    requires forall i :: 0 <= i < |ms| ==> ms[i].id != id
    ensures Open(s, ms, id) == s
  {
  }

  /** Opening for a known id leaves exactly one backdrop, whatever was there:
      a new element, for the first member with that id, not yet active, and
      the frame that activates it is the last pending callback. */
  lemma OpenKnownId(s: State, ms: seq<Member>, id: int, i: int)
    requires Inv(s) && FirstWithId(ms, id, i)
    ensures var s' := Open(s, ms, id);
      && s'.mounted == [Backdrop(s.nextElem, ms[i], false, false)]
      && s'.pending == s.pending + [Activate(s.nextElem)]
      && forall k :: 0 <= k < |s.mounted| ==> s.mounted[k].elem != s.nextElem
  {
    FindIsFirst(ms, id, i);
  }

  /** Once its animation frame runs, the newly opened dialog is the one
      backdrop in the document and it is active. */
  lemma OpenThenFrame(s: State, ms: seq<Member>, id: int, i: int)
    requires Inv(s) && FirstWithId(ms, id, i)
    ensures var s' := Open(s, ms, id);
      var s'' := Fire(s', |s'.pending| - 1);
      s''.mounted == [Backdrop(s.nextElem, ms[i], true, false)] && s''.pending == s.pending
  {
    OpenKnownId(s, ms, id, i);
    var s' := Open(s, ms, id);
    assert Dequeue(s'.pending, |s'.pending| - 1) == s.pending;
  }

  /** The callbacks of earlier dialogs that touch one element (an animation
      frame, a removal) leave a newly opened dialog alone. */
  lemma StaleElementTasksSpareNewDialog(s: State, ms: seq<Member>, id: int, i: int, k: nat)
    requires Inv(s) && FirstWithId(ms, id, i)
    requires k < |s.pending| && !s.pending[k].CloseLater?
    ensures var s' := Open(s, ms, id);
      k < |s'.pending| && Fire(s', k).mounted == s'.mounted
  {
  }

  // ---------------------------------------------------------------------------
  // Closing and submitting
  // ---------------------------------------------------------------------------

  /** Closing with no backdrop in the document does nothing. */
  lemma CloseWithoutDialog(s: State)
    requires |s.mounted| == 0
    ensures Close(s) == s
  {
  }

  /** Closing hides the backdrop at once but keeps it in the document; only
      the removal it schedules takes it out. */
  lemma CloseHides(s: State)
    requires |s.mounted| == 1
    ensures var b := s.mounted[0];
      && Close(s).mounted == [b.(active := false)]
      && Close(s).pending == s.pending + [Detach(b.elem)]
  {
  }

  /** When the removal scheduled by closing runs, the document holds no backdrop. */
  lemma CloseThenRemoval(s: State)
    requires |s.mounted| == 1
    ensures var s' := Close(s);
      Fire(s', |s'.pending| - 1).mounted == [] && Fire(s', |s'.pending| - 1).pending == s.pending
  {
  }

  /** A removal for an element that is no longer in the document is harmless. */
  lemma RemovalOfDetachedElement(s: State, k: nat)
    requires k < |s.pending| && s.pending[k].Detach?
    requires forall j :: 0 <= j < |s.mounted| ==> s.mounted[j].elem != s.pending[k].elem
    ensures Fire(s, k).mounted == s.mounted
  {
    var e := s.pending[k].elem;
    WithoutNothing(s.mounted, e);
  }

  lemma {:induction false} WithoutNothing(bs: seq<Backdrop>, e: nat)
    requires forall j :: 0 <= j < |bs| ==> bs[j].elem != e
    ensures Without(bs, e) == bs
    decreases |bs|
  {
    if |bs| > 0 {
      WithoutNothing(bs[1..], e);
      assert bs == [bs[0]] + bs[1..];
    }
  }

  /** Submitting disables the send button and schedules closeModal; a second
      submit of the same form does nothing. */
  lemma SubmitSchedulesClose(s: State)
    requires |s.mounted| == 1 && !s.mounted[0].sent
    ensures Submit(s).mounted == [s.mounted[0].(sent := true)]
    ensures Submit(s).pending == s.pending + [CloseLater]
    ensures Submit(Submit(s)) == Submit(s)
  {
  }

  /** Running a non-empty list of events is one step, then the rest. */
  lemma RunStep(s: State, ms: seq<Member>, ev: Event, evs: seq<Event>)
    ensures Run(s, ms, [ev] + evs) == Run(Step(s, ms, ev), ms, evs)
  {
  }

  /** Running one more event at the end of a list is one step after the rest. */
  lemma {:induction false} RunSnoc(s: State, ms: seq<Member>, evs: seq<Event>, ev: Event)
    ensures Run(s, ms, evs + [ev]) == Step(Run(s, ms, evs), ms, ev)
    decreases |evs|
  {
    if |evs| == 0 {
      assert evs + [ev] == [ev] + [];
      RunStep(s, ms, ev, []);
    } else {
      assert evs + [ev] == [evs[0]] + (evs[1..] + [ev]);
      RunStep(s, ms, evs[0], evs[1..] + [ev]);
      RunSnoc(Step(s, ms, evs[0]), ms, evs[1..], ev);
      assert evs == [evs[0]] + evs[1..];
      RunStep(s, ms, evs[0], evs[1..]);
    }
  }

  /** The states of the scenario below, one per event: the first dialog is
      opened, shown and submitted; the second is opened and shown; then the
      first dialog's submit timer runs. */
  function FirstOpened(first: Member): State {
    State([Backdrop(0, first, false, false)], [Activate(0)], 1)
  }

  function FirstShown(first: Member): State {
    State([Backdrop(0, first, true, false)], [], 1)
  }

  function FirstSubmitted(first: Member): State {
    State([Backdrop(0, first, true, true)], [CloseLater], 1)
  }

  function SecondOpened(second: Member): State {
    State([Backdrop(1, second, false, false)], [CloseLater, Activate(1)], 2)
  }

  function SecondShown(second: Member): State {
    State([Backdrop(1, second, true, false)], [CloseLater], 2)
  }

  function SecondClosedByTimer(second: Member): State {
    State([Backdrop(1, second, false, false)], [Detach(1)], 2)
  }

  /** The events of the scenario, up to the point where the second dialog is shown. */
  function UntilSecondShown(first: Member, second: Member): seq<Event> {
    [OpenConnect(first.id), RunTask(0), SubmitForm, OpenConnect(second.id), RunTask(1)]
  }

  lemma ScenarioFirstDialog(first: Member, second: Member)
    ensures Step(Init(), [first, second], OpenConnect(first.id)) == FirstOpened(first)
    ensures Step(FirstOpened(first), [first, second], RunTask(0)) == FirstShown(first)
    ensures Step(FirstShown(first), [first, second], SubmitForm) == FirstSubmitted(first)
  {
    FindIsFirst([first, second], first.id, 0);
  }

  lemma ScenarioSecondDialog(first: Member, second: Member)
    requires first.id != second.id
    ensures Step(FirstSubmitted(first), [first, second], OpenConnect(second.id)) == SecondOpened(second)
    ensures Step(SecondOpened(second), [first, second], RunTask(1)) == SecondShown(second)
  {
    FindIsFirst([first, second], second.id, 1);
  }

  lemma ScenarioTimer(second: Member, ms: seq<Member>)
    ensures Step(SecondShown(second), ms, RunTask(0)) == SecondClosedByTimer(second)
  {
  }

  lemma ScenarioUntilSecondShown(first: Member, second: Member)
    requires first.id != second.id
    ensures Run(Init(), [first, second], UntilSecondShown(first, second)) == SecondShown(second)
  {
    var ms := [first, second];
    ScenarioFirstDialog(first, second);
    ScenarioSecondDialog(first, second);
    RunStep(Init(), ms, OpenConnect(first.id), [RunTask(0), SubmitForm, OpenConnect(second.id), RunTask(1)]);
    RunStep(FirstOpened(first), ms, RunTask(0), [SubmitForm, OpenConnect(second.id), RunTask(1)]);
    RunStep(FirstShown(first), ms, SubmitForm, [OpenConnect(second.id), RunTask(1)]);
    RunStep(FirstSubmitted(first), ms, OpenConnect(second.id), [RunTask(1)]);
    RunStep(SecondOpened(second), ms, RunTask(1), []);
  }

  /** The submit timer has no guard: if the user submits one member's
      dialog and opens another member's dialog before the timer runs, the
      timer closes the second dialog, which is on screen and which the user
      neither submitted nor closed. */
  lemma StaleSubmitTimerClosesLaterDialog(first: Member, second: Member)
    requires first.id != second.id
    ensures var ms := [first, second];
      var shown := Run(Init(), ms, [OpenConnect(first.id), RunTask(0), SubmitForm, OpenConnect(second.id), RunTask(1)]);
      var s := Run(Init(), ms, [OpenConnect(first.id), RunTask(0), SubmitForm, OpenConnect(second.id), RunTask(1), RunTask(0)]);
      && shown.mounted == [Backdrop(1, second, true, false)]
      && shown.pending == [CloseLater]
      && s.mounted == [Backdrop(1, second, false, false)]
      && s.pending == [Detach(1)]
  {
    var ms := [first, second];
    var evs := UntilSecondShown(first, second);
    ScenarioUntilSecondShown(first, second);
    ScenarioTimer(second, ms);
    RunSnoc(Init(), ms, evs, RunTask(0));
    assert evs + [RunTask(0)] == [OpenConnect(first.id), RunTask(0), SubmitForm, OpenConnect(second.id), RunTask(1), RunTask(0)];
  }
}

=== FILE: directory.dfy ===
/** The member directory of main.js: the filter behind the search box and the
    industry and location selectors, and the grid the directory renders.
    The page is abstract: a control or mount point is either present (with its
    value) or absent, and a rendered card is the id of the member it shows,
    which is what its Connect button hands to the connect dialog. */
module Directory {

  import opened Maybe
  import opened Text
  import opened Selection

  /** A directory entry, with the fields main.js reads. */
  datatype Member = Member(
    id: int,
    name: string,
    role: string,
    initials: string,
    location: string,
    industry: string,
    tags: seq<string>)

  /** The raw values of the search box and the two selectors; None when the
      control is not on the current page. */
  datatype Controls = Controls(search: Option<string>, industry: Option<string>, location: Option<string>)

  /** The normalised values filterMembers tests members against. */
  datatype Criteria = Criteria(term: string, industry: string, location: string)

  /** `control?.value.toLowerCase() || ''`: a missing control reads as empty. */
  function ControlValue(v: Option<string>): string {
    match v
    case None => ""
    case Some(s) => Lower(s)
  }

  function CriteriaOf(c: Controls): Criteria {
    Criteria(ControlValue(c.search), ControlValue(c.industry), ControlValue(c.location))
  }

  /** The text the search box is matched against: name, role and the tags
      joined by single spaces, separated by single spaces. */
  function SearchText(m: Member): string {
    m.name + " " + m.role + " " + Join(m.tags, " ")
  }

  predicate MatchesSearch(m: Member, term: string) {
    term == "" || Includes(Lower(SearchText(m)), term)
  }

  /** The selector value is compared with the member's industry as stored,
      without lower-casing the latter. main.js tests emptiness twice
      (`!industry` at main.js:149); the repeat adds nothing. */
  predicate MatchesIndustry(m: Member, industry: string) {
    industry == "" || m.industry == industry
  }

  /** The location test is a placeholder: it passes only when no location is chosen. */
  predicate MatchesLocation(location: string) {
    location == ""
  }

  /** The filter callback of filterMembers. */
  predicate Keeps(c: Criteria, m: Member) {
    MatchesSearch(m, c.term) && MatchesIndustry(m, c.industry) && MatchesLocation(c.location)
  }

  /** The filter callback as a function value. */
  function KeepFn(c: Criteria): Member -> bool {
    m => Keeps(c, m)
  }

  /** `appData.members.filter(...)` with the callback of filterMembers. */
  function Filtered(ms: seq<Member>, c: Criteria): (r: seq<Member>)
    ensures forall m :: m in r <==> m in ms && Keeps(c, m)
  {
    Filter(ms, KeepFn(c))
  }

  /** The filtered directory is the subsequence of the directory at exactly
      the positions of the members that pass, and nothing else is. */
  lemma FilteredCharacterised(ms: seq<Member>, c: Criteria, r: seq<Member>)
    ensures r == Filtered(ms, c) <==>
      exists idx :: Embeds(r, ms, idx) && forall i :: 0 <= i < |ms| ==> (i in idx <==> Keeps(c, ms[i]))
  {
    FilterCharacterised(ms, KeepFn(c), r);
    assert forall idx :: SelectsExactly(ms, KeepFn(c), r, idx) <==>
      Embeds(r, ms, idx) && forall i :: 0 <= i < |ms| ==> (i in idx <==> Keeps(c, ms[i]));
  }

  /** Filtering the filtered directory again changes nothing. */
  lemma FilteredIdempotent(ms: seq<Member>, c: Criteria)
    ensures Filtered(Filtered(ms, c), c) == Filtered(ms, c)
  {
    FilterIdempotent(ms, KeepFn(c));
  }

  /** A member passes the search exactly when the term is empty or occurs in
      the lower-cased search text; the explicit emptiness test is redundant. */
  lemma MatchesSearchIff(m: Member, term: string)
    ensures MatchesSearch(m, term) <==> (term == "" || exists i :: OccursAt(Lower(SearchText(m)), term, i))
    ensures MatchesSearch(m, term) <==> Includes(Lower(SearchText(m)), term)
  {
    IncludesIffOccurs(Lower(SearchText(m)), term);
    if term == "" {
      IncludesEmpty(Lower(SearchText(m)));
    }
  }

  /** With no search term, no industry and no location every member passes. */
  lemma EmptyCriteriaKeepAll(ms: seq<Member>)
    ensures Filtered(ms, Criteria("", "", "")) == ms
  {
    FilterKeepsAll(ms, KeepFn(Criteria("", "", "")));
  }

  /** Any non-empty location value empties the result. */
  lemma LocationEmptiesResult(ms: seq<Member>, c: Criteria)
    requires c.location != ""
    ensures Filtered(ms, c) == []
  {
    FilterKeepsNone(ms, KeepFn(c));
  }

  /** With an industry chosen, every kept member has exactly that industry. */
  lemma IndustryIsExact(ms: seq<Member>, c: Criteria, m: Member)
    requires c.industry != ""
    ensures m in Filtered(ms, c) ==> m.industry == c.industry
  {
  }

  /** The industry selector is lower-cased and the member's industry is not,
      so once an industry is chosen a member whose industry holds an upper-case
      letter never passes. */
  lemma CapitalisedIndustryNeverMatches(ms: seq<Member>, ctl: Controls, m: Member, j: int)
    requires ctl.industry.Some? && ctl.industry.value != ""
    requires 0 <= j < |m.industry| && IsUpper(m.industry[j])
    ensures m !in Filtered(ms, CriteriaOf(ctl))
  {
  }

  /** A search for one of a member's tags, lower-cased, finds that member. */
  lemma TagMatchesItsMember(m: Member, k: int)
    requires 0 <= k < |m.tags|
    ensures MatchesSearch(m, Lower(m.tags[k]))
  {
    JoinIncludesPart(m.tags, " ", k);
    IncludesWithin(m.name + " " + m.role + " ", Join(m.tags, " "), "", m.tags[k]);
    assert m.name + " " + m.role + " " + Join(m.tags, " ") + "" == SearchText(m);
    IncludesLower(SearchText(m), m.tags[k]);
  }

  // ---------------------------------------------------------------------------
  // The rendered directory
  // ---------------------------------------------------------------------------

  /** The directory page: its controls, the #memberGrid mount (the ids of its
      cards, in order) and the #memberCount mount (the number shown).
      A mount that is not on the page is None. */
  datatype Page = Page(controls: Controls, grid: Option<seq<int>>, count: Option<nat>)

  /** The card ids for a list of members, one per member in list order. */
  function CardIds(ms: seq<Member>): seq<int> {
    seq(|ms|, i requires 0 <= i < |ms| => ms[i].id)
  }

  /** renderDirectory with updateCount: without a grid nothing happens;
      otherwise the grid is cleared and refilled with one card per member,
      and the count (when shown) becomes the number of members. */
  function RenderDirectory(p: Page, ms: seq<Member>): (q: Page)
    ensures q.controls == p.controls
  {
    if p.grid.None? then p
    else p.(grid := Some(CardIds(ms)), count := if p.count.Some? then Some(|ms|) else None)
  }

  /** The rendered page holds one card per member, in input order, and the
      count shows the number of cards; the cards and count previously on the
      page play no part (the grid is replaced, not appended to). */
  lemma RenderShowsMembers(p: Page, p': Page, ms: seq<Member>)
    requires p.grid.Some? && p'.grid.Some? && p.count.Some? == p'.count.Some?
    ensures RenderDirectory(p, ms).grid == RenderDirectory(p', ms).grid
    ensures RenderDirectory(p, ms).count == RenderDirectory(p', ms).count
    ensures var g := RenderDirectory(p, ms).grid.value;
      |g| == |ms| && forall i :: 0 <= i < |ms| ==> g[i] == ms[i].id
    ensures p.count.Some? ==> RenderDirectory(p, ms).count == Some(|RenderDirectory(p, ms).grid.value|)
  {
  }

  /** Rendering twice with the same members is the same as rendering once. */
  lemma RenderIdempotent(p: Page, ms: seq<Member>)
    ensures RenderDirectory(RenderDirectory(p, ms), ms) == RenderDirectory(p, ms)
  {
  }

  /** filterMembers: recompute the criteria from the controls, filter the full
      member list and render the result; a page without a grid is left alone. */
  function FilterMembers(p: Page, all: seq<Member>): Page {
    if p.grid.None? then p else RenderDirectory(p, Filtered(all, CriteriaOf(p.controls)))
  }

  /** The `input` and `change` listeners: store the new value, then filter.
      A page without the control has no listener. */
  function OnSearchInput(p: Page, all: seq<Member>, v: string): Page {
    if p.controls.search.None? then p
    else FilterMembers(p.(controls := p.controls.(search := Some(v))), all)
  }

  function OnIndustryChange(p: Page, all: seq<Member>, v: string): Page {
    if p.controls.industry.None? then p
    else FilterMembers(p.(controls := p.controls.(industry := Some(v))), all)
  }

  /** filterByTag: put the tag into the search box and filter; a page without a
      search box is left alone. */
  function FilterByTag(p: Page, all: seq<Member>, tag: string): Page {
    if p.controls.search.None? then p
    else FilterMembers(p.(controls := p.controls.(search := Some(tag))), all)
  }

  /** The grid after filtering shows the ids of exactly the passing members,
      in directory order, and the count agrees with it. */
  lemma FilterMembersShowsSelection(p: Page, all: seq<Member>)
    requires p.grid.Some?
    ensures var q := FilterMembers(p, all);
      && q.controls == p.controls
      && q.grid.Some?
      && (exists r, idx ::
            && Embeds(r, all, idx)
            && (forall i :: 0 <= i < |all| ==> (i in idx <==> Keeps(CriteriaOf(p.controls), all[i])))
            && q.grid.value == CardIds(r))
      && (q.count.Some? <==> p.count.Some?)
      && (q.count.Some? ==> q.count.value == |q.grid.value|)
  {
    var c := CriteriaOf(p.controls);
    var r := Filtered(all, c);
    FilteredCharacterised(all, c, r);
    var idx :| Embeds(r, all, idx) && forall i :: 0 <= i < |all| ==> (i in idx <==> Keeps(c, all[i]));
    assert FilterMembers(p, all).grid.value == CardIds(r);
  }

  /** Re-running the filter without changing the controls changes nothing. */
  lemma FilterMembersIdempotent(p: Page, all: seq<Member>)
    ensures FilterMembers(FilterMembers(p, all), all) == FilterMembers(p, all)
  {
  }

  /** Controls that are empty or absent read as no criteria at all. */
  predicate Cleared(v: Option<string>) {
    v.None? || v.value == ""
  }

  /** With every control cleared the grid shows the whole directory, in order. */
  lemma ClearedControlsShowAll(p: Page, all: seq<Member>)
    requires p.grid.Some?
    requires Cleared(p.controls.search) && Cleared(p.controls.industry) && Cleared(p.controls.location)
    ensures FilterMembers(p, all).grid == Some(CardIds(all))
  {
    assert CriteriaOf(p.controls) == Criteria("", "", "");
    EmptyCriteriaKeepAll(all);
  }

  /** Choosing an industry keeps the selector's value and shows exactly the
      members whose stored industry is that value lower-cased, among those the
      search box and the location selector let through. */
  lemma IndustryChangeShowsOnlyThatIndustry(p: Page, all: seq<Member>, v: string)
    requires p.controls.industry.Some? && p.grid.Some? && v != ""
    ensures var q := OnIndustryChange(p, all, v);
      && q.controls == p.controls.(industry := Some(v))
      && q.grid.Some?
      && (forall id :: id in q.grid.value ==> exists m :: m in all && m.id == id && m.industry == Lower(v))
      && (forall m ::
            (m in all && m.industry == Lower(v) && MatchesSearch(m, ControlValue(p.controls.search))
             && Cleared(p.controls.location)) ==> m.id in q.grid.value)
  {
    var q := OnIndustryChange(p, all, v);
    var c := CriteriaOf(p.controls.(industry := Some(v)));
    LowerEmptyIff(v);
    var r := Filtered(all, c);
    var g := q.grid.value;
    assert g == CardIds(r);
    forall id | id in g
      ensures exists m :: m in all && m.id == id && m.industry == Lower(v)
    {
      var k :| 0 <= k < |g| && g[k] == id;
      assert r[k] in r;
      IndustryIsExact(all, c, r[k]);
    }
    forall m | m in all && m.industry == Lower(v) && MatchesSearch(m, ControlValue(p.controls.search))
        && Cleared(p.controls.location)
      ensures m.id in g
    {
      assert Keeps(c, m);
      var k :| 0 <= k < |r| && r[k] == m;
      assert g[k] == m.id;
    }
  }

  /** Calling filterByTag with one of a member's tags keeps that member's card
      on the grid, unless an industry or location choice excludes the member. */
  lemma FilterByTagShowsTaggedMember(p: Page, all: seq<Member>, m: Member, k: int)
    requires p.controls.search.Some? && p.grid.Some?
    requires m in all && 0 <= k < |m.tags|
    requires MatchesIndustry(m, ControlValue(p.controls.industry))
    requires Cleared(p.controls.location)
    ensures var q := FilterByTag(p, all, m.tags[k]);
      q.controls.search == Some(m.tags[k]) && q.grid.Some? && m.id in q.grid.value
  {
    var p1 := p.(controls := p.controls.(search := Some(m.tags[k])));
    var c := CriteriaOf(p1.controls);
    TagMatchesItsMember(m, k);
    assert Keeps(c, m);
    var r := Filtered(all, c);
    assert m in r;
    var i :| 0 <= i < |r| && r[i] == m;
    assert CardIds(r)[i] == m.id;
  }

  /** Calling filterByTag with a tag is the same as typing it into the search box. */
  lemma FilterByTagIsSearchInput(p: Page, all: seq<Member>, tag: string)
    ensures FilterByTag(p, all, tag) == OnSearchInput(p, all, tag)
  {
  }

  /** The one member of the scenario below. */
  function Ada(): Member {
    Member(1, "Ada Lovelace", "Engineer", "AL", "London", "tech", ["ai"])
  }

  /** A member passes a search for any word of its search text whose lower-case form is the term. */
  lemma MatchesSearchWord(m: Member, x: string, w: string, y: string)
    requires SearchText(m) == x + w + y
    ensures MatchesSearch(m, Lower(w))
  {
    LowerAppend(x + w, y);
    LowerAppend(x, w);
    assert StartsWith(Lower(w), Lower(w));
    IncludesWithin(Lower(x), Lower(w), Lower(y), Lower(w));
  }

  lemma AdaMatchesLovelace()
    ensures MatchesSearch(Ada(), "lovelace")
  {
    var rest := " Engineer " + Join(["ai"], " ");
    AdaSearchText(rest);
    MatchesSearchWord(Ada(), "Ada ", "Lovelace", rest);
    LowerLovelace();
  }

  lemma AdaSearchText(rest: string)
    requires rest == " Engineer " + Join(["ai"], " ")
    ensures SearchText(Ada()) == "Ada " + "Lovelace" + rest
  {
  }

  lemma LowerLovelace()
    ensures Lower("Lovelace") == "lovelace"
  {
  }

  /** The page of the scenario below: every control present and empty, an
      empty grid and a zero count. */
  function BlankPage(): Page {
    Page(Controls(Some(""), Some(""), Some("")), Some([]), Some(0))
  }

  lemma SearchLovelace()
    ensures OnSearchInput(BlankPage(), [Ada()], "lovelace")
      == BlankPage().(controls := BlankPage().controls.(search := Some("lovelace")), grid := Some([1]), count := Some(1))
  {
    var p1 := BlankPage().(controls := BlankPage().controls.(search := Some("lovelace")));
    assert Lower("lovelace") == "lovelace";
    assert Lower("") == "";
    assert CriteriaOf(p1.controls) == Criteria("lovelace", "", "");
    AdaMatchesLovelace();
    FilterKeepsAll([Ada()], KeepFn(Criteria("lovelace", "", "")));
    assert CardIds([Ada()]) == [1];
  }

  lemma ClearSearch(p: Page)
    requires p.grid.Some? && p.count.Some?
    requires p.controls.search.Some? && p.controls.industry == Some("") && p.controls.location == Some("")
    ensures OnSearchInput(p, [Ada()], "").grid == Some([1])
    ensures OnSearchInput(p, [Ada()], "").count == Some(1)
  {
    var p2 := p.(controls := p.controls.(search := Some("")));
    assert Lower("") == "";
    assert CriteriaOf(p2.controls) == Criteria("", "", "");
    EmptyCriteriaKeepAll([Ada()]);
    assert CardIds([Ada()]) == [1];
  }

  /** The scenario of a one-member directory: searching "lovelace" shows the
      one card, and clearing the search shows the full directory again. */
  lemma LovelaceScenario()
    ensures var searched := OnSearchInput(BlankPage(), [Ada()], "lovelace");
      var cleared := OnSearchInput(searched, [Ada()], "");
      && searched.grid == Some([1]) && searched.count == Some(1)
      && cleared.grid == Some([1]) && cleared.count == Some(1)
  {
    SearchLovelace();
    ClearSearch(OnSearchInput(BlankPage(), [Ada()], "lovelace"));
  }
}

=== FILE: form_log.dfy ===
/** The submission log behind the join and propose forms of main.js: one
    localStorage entry per form, holding the list of its submissions. Storage
    is modelled as the parsed values, a map from key to list of records. */
module FormLog {

  /** A stored submission: field name to value. */
  type Record = map<string, string>

  /** localStorage, read through JSON.parse. */
  type Storage = map<string, seq<Record>>

  /** The two forms main.js wires up, by the name their log is kept under. */
  const JoinSubmissions: string := "join_submissions"
  const ProjectProposals: string := "project_proposals"

  /** The storage key of a form's log. */
  function StorageKey(formName: string): string {
    "gce_" + formName
  }

  /** `JSON.parse(localStorage.getItem(key) || '[]')`: a missing key reads as
      an empty log. */
  function Read(st: Storage, key: string): seq<Record> {
    if key in st then st[key] else []
  }

  /** Position i holds the last entry named k. */
  ghost predicate LastWithName(es: seq<(string, string)>, k: string, i: int) {
    0 <= i < |es| && es[i].0 == k && forall j :: i < j < |es| ==> es[j].0 != k
  }

  /** `Object.fromEntries(new FormData(form))`: one field per name that occurs
      among the entries. */
  function FromEntries(es: seq<(string, string)>): (r: Record)
    ensures forall k :: k in r <==> exists i :: 0 <= i < |es| && es[i].0 == k
    decreases |es|
  {
    if |es| == 0 then map[]
    else
      var last := es[|es| - 1];
      var r := FromEntries(es[..|es| - 1]);
      assert forall i :: 0 <= i < |es| - 1 ==> es[..|es| - 1][i] == es[i];
      r[last.0 := last.1]
  }

  /** When a name occurs more than once, the last entry's value is the one kept. */
  lemma {:induction false} FromEntriesLastWins(es: seq<(string, string)>, k: string, i: int)
    requires LastWithName(es, k, i)
    ensures k in FromEntries(es) && FromEntries(es)[k] == es[i].1
    decreases |es|
  {
    if i < |es| - 1 {
      assert LastWithName(es[..|es| - 1], k, i);
      FromEntriesLastWins(es[..|es| - 1], k, i);
    }
  }

  /** The record a submit stores: the form's fields, then `timestamp`, which
      replaces a field of that name. */
  function NewRecord(es: seq<(string, string)>, now: string): Record {
    FromEntries(es)["timestamp" := now]
  }

  /** The fields of a stored record: the timestamp, and otherwise the last
      value entered under each name the form sent. */
  lemma NewRecordFields(es: seq<(string, string)>, now: string, k: string)
    ensures var rec := NewRecord(es, now);
      && "timestamp" in rec && rec["timestamp"] == now
      && (k != "timestamp" ==> (k in rec <==> exists i :: 0 <= i < |es| && es[i].0 == k))
      && (k != "timestamp" ==> forall i :: LastWithName(es, k, i) ==> rec[k] == es[i].1)
  {
    forall i | k != "timestamp" && LastWithName(es, k, i)
      ensures NewRecord(es, now)[k] == es[i].1
    {
      FromEntriesLastWins(es, k, i);
    }
  }

  /** The submit listener: read the form's log, append the new record, write
      it back. The clock reading `new Date().toISOString()` is the parameter now. */
  function Submit(st: Storage, formName: string, es: seq<(string, string)>, now: string): (r: Storage)
    ensures Read(r, StorageKey(formName)) == Read(st, StorageKey(formName)) + [NewRecord(es, now)]
    ensures r.Keys == st.Keys + {StorageKey(formName)}
    ensures forall k :: k in st && k != StorageKey(formName) ==> r[k] == st[k]
  {
    var key := StorageKey(formName);
    st[key := Read(st, key) + [NewRecord(es, now)]]
  }

  /** Different forms keep different logs. */
  lemma StorageKeyInjective(a: string, b: string)
    requires StorageKey(a) == StorageKey(b)
    ensures a == b
  {
    assert a == StorageKey(a)[4..];
    assert b == StorageKey(b)[4..];
  }

  /** Submitting one form leaves every other form's log as it was. */
  lemma SubmitLeavesOtherForms(st: Storage, a: string, b: string, es: seq<(string, string)>, now: string)
    requires a != b
    ensures Read(Submit(st, a, es, now), StorageKey(b)) == Read(st, StorageKey(b))
  {
    if StorageKey(a) == StorageKey(b) {
      StorageKeyInjective(a, b);
    }
  }

  /** The join and propose forms never share a log. */
  lemma JoinAndProposeAreSeparate()
    ensures StorageKey(JoinSubmissions) != StorageKey(ProjectProposals)
  {
  }

  /** The first submit of a form finds no log and starts one. */
  lemma FirstSubmitStartsLog(st: Storage, formName: string, es: seq<(string, string)>, now: string)
    requires StorageKey(formName) !in st
    ensures Submit(st, formName, es, now)[StorageKey(formName)] == [NewRecord(es, now)]
  {
  }

  /** One submission of a form: its entries and the clock reading. */
  datatype Entry = Entry(fields: seq<(string, string)>, now: string)

  /** A run of submits of the same form, in order. */
  function SubmitAll(st: Storage, formName: string, batch: seq<Entry>): Storage
    decreases |batch|
  {
    if |batch| == 0 then st
    else SubmitAll(Submit(st, formName, batch[0].fields, batch[0].now), formName, batch[1..])
  }

  /** The records a run of submits stores, in order. */
  function Records(batch: seq<Entry>): (rs: seq<Record>)
    ensures |rs| == |batch|
  {
    seq(|batch|, i requires 0 <= i < |batch| => NewRecord(batch[i].fields, batch[i].now))
  }

  /** A run of submits appends its records in submission order and keeps
      everything stored before them. */
  lemma {:induction false} SubmitAllAppends(st: Storage, formName: string, batch: seq<Entry>)
    ensures Read(SubmitAll(st, formName, batch), StorageKey(formName)) == Read(st, StorageKey(formName)) + Records(batch)
    decreases |batch|
  {
    if |batch| == 0 {
      assert Records(batch) == [];
    } else {
      var key := StorageKey(formName);
      var st' := Submit(st, formName, batch[0].fields, batch[0].now);
      SubmitAllAppends(st', formName, batch[1..]);
      RecordsCons(batch);
      AppendAfter(Read(st, key), NewRecord(batch[0].fields, batch[0].now), Records(batch[1..]));
    }
  }

  lemma AppendAfter(log: seq<Record>, rec: Record, later: seq<Record>)
    ensures log + [rec] + later == log + ([rec] + later)
  {
  }

  lemma RecordsCons(batch: seq<Entry>)
    requires |batch| > 0
    ensures Records(batch) == [NewRecord(batch[0].fields, batch[0].now)] + Records(batch[1..])
  {
    var a := Records(batch);
    var b := [NewRecord(batch[0].fields, batch[0].now)] + Records(batch[1..]);
    assert |a| == |b|;
    forall i | 0 <= i < |a|
      ensures a[i] == b[i]
    {
      if i > 0 {
        assert b[i] == Records(batch[1..])[i - 1];
      }
    }
  }
}

=== FILE: maybe.dfy ===
/** The optional value used wherever the page may or may not hold an element
    (a control, a mount point) or a lookup may find nothing. */
module Maybe {

  datatype Option<+T> = None | Some(value: T)
}

=== FILE: selection.dfy ===
/** `Array.prototype.filter` and what it means: the result is the
    subsequence of the input at exactly the positions whose element passes. */
module Selection {

  /** `xs.filter(keep)`: the elements keep accepts, in their original order. */
  function Filter<T>(xs: seq<T>, keep: T -> bool): (r: seq<T>)
    ensures |r| <= |xs|
    ensures forall k :: 0 <= k < |r| ==> r[k] in xs && keep(r[k])
    ensures forall i :: 0 <= i < |xs| && keep(xs[i]) ==> xs[i] in r
  {
    if |xs| == 0 then []
    else (if keep(xs[0]) then [xs[0]] else []) + Filter(xs[1..], keep)
  }

  /** r is the subsequence of s picked out by the strictly increasing positions idx. */
  ghost predicate Embeds<T>(r: seq<T>, s: seq<T>, idx: seq<int>) {
    && |idx| == |r|
    && (forall k :: 0 <= k < |idx| ==> 0 <= idx[k] < |s| && r[k] == s[idx[k]])
    && (forall k, l :: 0 <= k < l < |idx| ==> idx[k] < idx[l])
  }

  /** r is the subsequence of xs at positions idx, and those are exactly the
      positions of the elements keep accepts. */
  ghost predicate SelectsExactly<T>(xs: seq<T>, keep: T -> bool, r: seq<T>, idx: seq<int>) {
    Embeds(r, xs, idx) && MarksPassing(xs, keep, idx)
  }

  /** Every position moved by d. */
  function Shift(idx: seq<int>, d: int): (r: seq<int>)
    ensures |r| == |idx|
    ensures forall k :: 0 <= k < |idx| ==> r[k] == idx[k] + d
  {
    seq(|idx|, k requires 0 <= k < |idx| => idx[k] + d)
  }

  /** Every position in idx is at least lo. */
  ghost predicate AllAtLeast(idx: seq<int>, lo: int) {
    forall k :: 0 <= k < |idx| ==> lo <= idx[k]
  }

  lemma EmbedsNonNegative<T>(r: seq<T>, s: seq<T>, idx: seq<int>)
    requires Embeds(r, s, idx)
    ensures AllAtLeast(idx, 0)
  {
  }

  /** Strictly increasing non-negative positions: the k-th is at least k. */
  lemma {:induction false} PositionsGrow(idx: seq<int>, k: int)
    requires AllAtLeast(idx, 0) && 0 <= k < |idx|
    requires forall a, b :: 0 <= a < b < |idx| ==> idx[a] < idx[b]
    ensures k <= idx[k]
    decreases k
  {
    if k > 0 {
      PositionsGrow(idx, k - 1);
      assert idx[k - 1] < idx[k];
    }
  }

  /** A subsequence is no longer than the sequence it is taken from. */
  lemma EmbedsLength<T>(r: seq<T>, s: seq<T>, idx: seq<int>)
    requires Embeds(r, s, idx)
    ensures |r| <= |s|
  {
    if |idx| > 0 {
      PositionsGrow(idx, |idx| - 1);
    }
  }

  /** Keeping a new head element: positions move up by one and 0 is added in front. */
  lemma EmbedsKeep<T>(x: T, r: seq<T>, s: seq<T>, idx: seq<int>)
    requires Embeds(r, s, idx)
    ensures Embeds([x] + r, [x] + s, [0] + Shift(idx, 1))
  {
    var idx' := [0] + Shift(idx, 1);
    forall k | 0 <= k < |idx'|
      ensures 0 <= idx'[k] < |[x] + s| && ([x] + r)[k] == ([x] + s)[idx'[k]]
    {
      if k > 0 {
        assert idx'[k] == idx[k - 1] + 1;
      }
    }
    forall k, l | 0 <= k < l < |idx'|
      ensures idx'[k] < idx'[l]
    {
      if k > 0 {
        assert idx'[k] == idx[k - 1] + 1 && idx'[l] == idx[l - 1] + 1;
      }
    }
  }

  /** Dropping a new head element: positions move up by one. */
  lemma EmbedsSkip<T>(x: T, r: seq<T>, s: seq<T>, idx: seq<int>)
    requires Embeds(r, s, idx)
    ensures Embeds(r, [x] + s, Shift(idx, 1))
  {
  }

  /** The positions in idx are exactly those of the elements keep accepts. */
  ghost predicate MarksPassing<T>(xs: seq<T>, keep: T -> bool, idx: seq<int>) {
    forall i :: 0 <= i < |xs| ==> (i in idx <==> keep(xs[i]))
  }

  lemma MarksPassingCons<T>(xs: seq<T>, keep: T -> bool, tail: seq<int>)
    requires |xs| > 0 && MarksPassing(xs[1..], keep, tail) && AllAtLeast(tail, 0)
    ensures MarksPassing(xs, keep, if keep(xs[0]) then [0] + Shift(tail, 1) else Shift(tail, 1))
  {
  }

  /** The filter keeps exactly the elements that pass, in their original order. */
  lemma {:induction false} FilterSelectsExactly<T>(xs: seq<T>, keep: T -> bool)
    ensures exists idx :: SelectsExactly(xs, keep, Filter(xs, keep), idx)
    decreases |xs|
  {
    if |xs| == 0 {
      assert SelectsExactly(xs, keep, Filter(xs, keep), []);
    } else {
      FilterSelectsExactly(xs[1..], keep);
      var tail :| SelectsExactly(xs[1..], keep, Filter(xs[1..], keep), tail);
      ExtendSelection(xs, keep, tail);
    }
  }

  /** A selection of the tail extends to one of the whole sequence. */
  lemma ExtendSelection<T>(xs: seq<T>, keep: T -> bool, tail: seq<int>)
    requires |xs| > 0 && SelectsExactly(xs[1..], keep, Filter(xs[1..], keep), tail)
    ensures SelectsExactly(xs, keep, Filter(xs, keep), if keep(xs[0]) then [0] + Shift(tail, 1) else Shift(tail, 1))
  {
    var rest := Filter(xs[1..], keep);
    EmbedsNonNegative(rest, xs[1..], tail);
    MarksPassingCons(xs, keep, tail);
    HeadAndTail(xs);
    if keep(xs[0]) {
      assert Filter(xs, keep) == [xs[0]] + rest;
      EmbedsKeep(xs[0], rest, xs[1..], tail);
    } else {
      assert Filter(xs, keep) == rest;
      EmbedsSkip(xs[0], rest, xs[1..], tail);
    }
  }

  /** The selection when the first element passes: it starts with that
      element and continues with a selection of the remaining elements. */
  lemma SelectionAfterKeep<T>(xs: seq<T>, keep: T -> bool, r: seq<T>, idx: seq<int>)
    requires |xs| > 0 && keep(xs[0]) && SelectsExactly(xs, keep, r, idx)
    ensures |r| > 0 && r[0] == xs[0]
    ensures SelectsExactly(xs[1..], keep, r[1..], Shift(idx[1..], -1))
  {
  }

  /** The selection when the first element fails: a selection of the remaining elements. */
  lemma SelectionAfterSkip<T>(xs: seq<T>, keep: T -> bool, r: seq<T>, idx: seq<int>)
    requires |xs| > 0 && !keep(xs[0]) && SelectsExactly(xs, keep, r, idx)
    ensures SelectsExactly(xs[1..], keep, r, Shift(idx, -1))
  {
  }

  /** Conversely, a selection of exactly the passing positions, in increasing
      order, is the filter's result: the two descriptions agree. */
  lemma {:induction false} SelectsExactlyIsFilter<T>(xs: seq<T>, keep: T -> bool, r: seq<T>, idx: seq<int>)
    requires SelectsExactly(xs, keep, r, idx)
    ensures r == Filter(xs, keep)
    decreases |xs|, 1
  {
    if |xs| == 0 {
      EmbedsLength(r, xs, idx);
    } else if keep(xs[0]) {
      IsFilterAfterKeep(xs, keep, r, idx);
    } else {
      IsFilterAfterSkip(xs, keep, r, idx);
    }
  }

  lemma {:induction false} IsFilterAfterKeep<T>(xs: seq<T>, keep: T -> bool, r: seq<T>, idx: seq<int>)
    requires |xs| > 0 && keep(xs[0]) && SelectsExactly(xs, keep, r, idx)
    ensures r == Filter(xs, keep)
    decreases |xs|, 0
  {
    SelectionAfterKeep(xs, keep, r, idx);
    SelectsExactlyIsFilter(xs[1..], keep, r[1..], Shift(idx[1..], -1));
    assert Filter(xs, keep) == [xs[0]] + Filter(xs[1..], keep);
    HeadAndTail(r);
  }

  lemma HeadAndTail<T>(r: seq<T>)
    requires |r| > 0
    ensures r == [r[0]] + r[1..]
  {
  }

  lemma {:induction false} IsFilterAfterSkip<T>(xs: seq<T>, keep: T -> bool, r: seq<T>, idx: seq<int>)
    requires |xs| > 0 && !keep(xs[0]) && SelectsExactly(xs, keep, r, idx)
    ensures r == Filter(xs, keep)
    decreases |xs|, 0
  {
    SelectionAfterSkip(xs, keep, r, idx);
    SelectsExactlyIsFilter(xs[1..], keep, r, Shift(idx, -1));
  }

  /** The filter's result is characterised without reference to how it is computed. */
  lemma FilterCharacterised<T>(xs: seq<T>, keep: T -> bool, r: seq<T>)
    ensures r == Filter(xs, keep) <==> exists idx :: SelectsExactly(xs, keep, r, idx)
  {
    if r == Filter(xs, keep) {
      FilterSelectsExactly(xs, keep);
    }
    if exists idx :: SelectsExactly(xs, keep, r, idx) {
      var idx :| SelectsExactly(xs, keep, r, idx);
      SelectsExactlyIsFilter(xs, keep, r, idx);
    }
  }

  /** When every element passes, the filter returns the list unchanged. */
  lemma {:induction false} FilterKeepsAll<T>(xs: seq<T>, keep: T -> bool)
    requires forall i :: 0 <= i < |xs| ==> keep(xs[i])
    ensures Filter(xs, keep) == xs
    decreases |xs|
  {
    if |xs| > 0 {
      FilterKeepsAll(xs[1..], keep);
      assert xs == [xs[0]] + xs[1..];
    }
  }

  /** When no element passes, the filter returns nothing. */
  lemma {:induction false} FilterKeepsNone<T>(xs: seq<T>, keep: T -> bool)
    requires forall i :: 0 <= i < |xs| ==> !keep(xs[i])
    ensures Filter(xs, keep) == []
    decreases |xs|
  {
    if |xs| > 0 {
      FilterKeepsNone(xs[1..], keep);
    }
  }

  /** Filtering an already filtered list changes nothing. */
  lemma FilterIdempotent<T>(xs: seq<T>, keep: T -> bool)
    ensures Filter(Filter(xs, keep), keep) == Filter(xs, keep)
  {
    FilterKeepsAll(Filter(xs, keep), keep);
  }
}

=== FILE: text.dfy ===
/** The string operations the directory filter relies on: `toLowerCase`
    (restricted to ASCII), `Array.prototype.join` and `String.prototype.includes`. */
module Text {

  /** True when c is an ASCII upper-case letter. */
  predicate IsUpper(c: char) {
    'A' <= c <= 'Z'
  }

  /** The ASCII case mapping of one character. */
  function LowerChar(c: char): char {
    if IsUpper(c) then (c as int + 32) as char else c
  }

  /** A string holding no ASCII upper-case letter. */
  predicate IsLowerCase(s: string) {
    forall i :: 0 <= i < |s| ==> !IsUpper(s[i])
  }

  /** `s.toLowerCase()`, for the ASCII letters only. */
  function Lower(s: string): (r: string)
    ensures |r| == |s|
    ensures IsLowerCase(r)
    ensures forall i :: 0 <= i < |s| && !IsUpper(s[i]) ==> r[i] == s[i]
    ensures forall i :: 0 <= i < |s| && IsUpper(s[i]) ==> r[i] as int == s[i] as int + 32
  {
    seq(|s|, i requires 0 <= i < |s| => LowerChar(s[i]))
  }

  /** Lower-casing works character by character, so it commutes with slicing. */
  lemma LowerSlice(s: string, i: int, j: int)
    requires 0 <= i <= j <= |s|
    ensures Lower(s)[i..j] == Lower(s[i..j])
  {
  }

  /** Lower-casing commutes with concatenation. */
  lemma LowerAppend(a: string, b: string)
    ensures Lower(a + b) == Lower(a) + Lower(b)
  {
  }

  /** The empty string is the only string whose lower-case form is empty. */
  lemma LowerEmptyIff(s: string)
    ensures Lower(s) == "" <==> s == ""
  {
  }

  /** `parts.join(sep)`: the parts in order with one separator between neighbours. */
  function Join(parts: seq<string>, sep: string): string {
    if |parts| == 0 then ""
    else if |parts| == 1 then parts[0]
    else parts[0] + sep + Join(parts[1..], sep)
  }

  /** p is a prefix of s. */
  predicate StartsWith(s: string, p: string) {
    |p| <= |s| && s[..|p|] == p
  }

  /** `s.includes(q)`: q is a prefix of s or of one of its suffixes. */
  function Includes(s: string, q: string): bool
    decreases |s|
  {
    StartsWith(s, q) || (|s| > 0 && Includes(s[1..], q))
  }

  /** The reference meaning of "q is a substring of s": q occurs in s at offset i. */
  ghost predicate OccursAt(s: string, q: string, i: int) {
    0 <= i && i + |q| <= |s| && s[i..i + |q|] == q
  }

  /** The search in Includes finds q exactly when q occurs somewhere in s. */
  lemma {:induction false} IncludesIffOccurs(s: string, q: string)
    ensures Includes(s, q) <==> exists i :: OccursAt(s, q, i)
    decreases |s|
  {
    if Includes(s, q) {
      if StartsWith(s, q) {
        assert OccursAt(s, q, 0);
      } else {
        IncludesIffOccurs(s[1..], q);
        var j :| OccursAt(s[1..], q, j);
        assert s[1..][j..j + |q|] == s[j + 1..j + 1 + |q|];
        assert OccursAt(s, q, j + 1);
      }
    }
    if exists i :: OccursAt(s, q, i) {
      var i :| OccursAt(s, q, i);
      if i == 0 {
        assert StartsWith(s, q);
      } else {
        assert s[1..][i - 1..i - 1 + |q|] == s[i..i + |q|];
        assert OccursAt(s[1..], q, i - 1);
        IncludesIffOccurs(s[1..], q);
      }
    }
  }

  /** Every string includes the empty string. */
  lemma IncludesEmpty(s: string)
    ensures Includes(s, "")
  {
  }

  /** A substring of s is a substring of anything that contains s. */
  lemma IncludesWithin(x: string, s: string, y: string, q: string)
    requires Includes(s, q)
    ensures Includes(x + s + y, q)
  {
    IncludesIffOccurs(s, q);
    var i :| OccursAt(s, q, i);
    assert (x + s + y)[|x| + i..|x| + i + |q|] == s[i..i + |q|];
    assert OccursAt(x + s + y, q, |x| + i);
    IncludesIffOccurs(x + s + y, q);
  }

  /** Lower-casing both sides keeps a substring a substring. */
  lemma IncludesLower(s: string, q: string)
    requires Includes(s, q)
    ensures Includes(Lower(s), Lower(q))
  {
    IncludesIffOccurs(s, q);
    var i :| OccursAt(s, q, i);
    LowerSlice(s, i, i + |q|);
    assert OccursAt(Lower(s), Lower(q), i);
    IncludesIffOccurs(Lower(s), Lower(q));
  }

  /** Every string contains itself. */
  lemma IncludesSelf(s: string)
    ensures Includes(s, s)
  {
    assert StartsWith(s, s);
  }

  /** Each part of a join occurs in the joined string. */
  lemma {:induction false} JoinIncludesPart(parts: seq<string>, sep: string, k: int)
    requires 0 <= k < |parts|
    ensures Includes(Join(parts, sep), parts[k])
    decreases |parts|
  {
    if |parts| == 1 {
      IncludesSelf(parts[0]);
    } else {
      var head, tail := parts[0], Join(parts[1..], sep);
      assert Join(parts, sep) == head + sep + tail;
      if k == 0 {
        IncludesSelf(head);
        IncludesWithin("", head, sep + tail, head);
        assert "" + head + (sep + tail) == head + sep + tail;
      } else {
        JoinIncludesPart(parts[1..], sep, k - 1);
        IncludesWithin(head + sep, tail, "", parts[k]);
        assert head + sep + tail + "" == head + sep + tail;
      }
    }
  }
}
